=== FILE: README.md ===
# Dimensional-model tree nodes: drop rules, validation, aggregations

This project models three node kinds of the modeler's dimensional-model tree in Dafny and proves properties about them:

- **Levels** (`LevelMetaData`): a level is bound to one column. Member properties are dropped onto it, and they must come from the level's own table.
- **The measures collection** (`MeasuresCollection`): its `acceptsDrop` accepts fields only from a fact table, or from the one table of a single-table model; `onDrop` is more lenient. It is valid only when it holds at least one measure, every measure is valid, and no two measures share a name.
- **Aggregation nodes** (`BaseAggregationMetaDataNode`): the record behind measures and member properties. Binding a column derives the possible, default and selected aggregations from the column's data type, unless the column stores its own aggregation type or list.

Every node is an immutable datatype and every operation a pure function. A mutator returns the node after the call. A drop returns a `DropResult`: the outcome (`Rejected` for a null return, `Conflict` for an exception, `Dropped(node)` otherwise), the target afterwards, and the dropped object afterwards.

Modules:

- `Model` (model.dfy): columns, tables, messages, and the workspace facts.
- `Aggregations` (aggregations.dfy): the aggregation node.
- `Siblings` (siblings.dfy): duplicate-name detection, which levels and the measures collection share.
- `Candidates` (candidates.dfy): what can be dropped, and what a drop returns.
- `Levels` (levels.dfy): levels.
- `Measures` (measures.dfy): the measures collection.

Things outside the core become parameters:

- The workspace becomes `Workspace`: the number of available tables, and whether AGILE_BI_VERSION is present and at least 2.0.
- The workspace factories become function parameters. `makeMeasure` stands for `createMeasureForNode`. `makeMemberProperty` stands for `createColumnBackedNode` followed by `createMemberPropertyForParentWithNode`. Both may produce no node (`None`, a Java null), and each drop handles that as the code does.
- The outcome of the base-class `validate()`, which is outside this model, becomes a `BaseValidity` parameter.
- Localised messages become opaque `(key, args)` pairs.
- Object identity becomes a node `id`, and parent links refer to ids.

Behaviours of the code worth knowing (the model follows the code):

- **First sibling already invalid.** A repeated name invalidates both siblings. But the first sibling receives the duplicate message only if it was still valid when the repeat was found. A first sibling that was already invalid gets no message (`Siblings.SettledMeaning`).
- **Measures are always accepted.** The collection accepts every measure, yet `onDrop` can refuse or fail on one (`Measures.AcceptedMeasureMayNotDrop`).
- **Refused fields still drop.** Before version 2.0 a field of a multi-table model is refused by `acceptsDrop`. From 2.0 so is every field of a model without tables. `onDrop` still turns such a field into a measure, from 2.0 once it is bound (`Measures.FieldRefusedYetDropped`).
- **Table drops skip the fact-table check.** A table drop never runs that check (`Measures.TableDropIgnoresFactRule`).
- **A null first measure still appends the rest.** When the factory yields null for a table's first field, the drop returns null, yet the measures of the other fields are still appended (`Measures.OnDrop`).
- **Null measures and member properties.** A null measure from a field drop is returned as a refusal without any check. A null member property fails with a NullPointerException, which `onDrop` wraps as a ModelerException (`Levels.OnDrop`).
- **Text default is NONE.** Binding a non-numeric column sets the default aggregation to NONE. The lazy getter falls back to COUNT only when no default is stored at all.
- **Children are not revalidated.** As far as these classes show, neither validation calls the children's own `validate()`; the base-class `validate()` that `LevelMetaData.validate` calls first is outside this model. Both read each child's current verdict and messages.
- **Reparenting happens before the check.** `onDrop` reparents a dropped member property or measure before the check that may fail. A failed drop therefore leaves the object reparented; the tree is not left in its pre-call state.

## Model

| member | source | states |
|---|---|---|
| Aggregations.NumericAggregationTypes | core/src/main/java/org/pentaho/agilebi/modeler/nodes/BaseAggregationMetaDataNode.java:51-54 | the numeric list has no repeats, never offers NONE, and offers SUM, COUNT and COUNT_DISTINCT |
| Aggregations.TextAggregationTypes | core/src/main/java/org/pentaho/agilebi/modeler/nodes/BaseAggregationMetaDataNode.java:56-58 | the text list has no repeats, offers COUNT and COUNT_DISTINCT, never NONE or SUM, and lies within the numeric list |
| Aggregations.SetLogicalColumn | core/src/main/java/org/pentaho/agilebi/modeler/nodes/BaseAggregationMetaDataNode.java:140-173 | null only clears the column; same data type keeps default, possible and selected; a fresh binding or type change derives possible from the type, default from the stored type else SUM/NONE, selection from the stored list else all possible |
| Aggregations.BindNumericColumn | core/src/main/java/org/pentaho/agilebi/modeler/nodes/BaseAggregationMetaDataNode.java:153-155 | an unbound node bound to a numeric column offers and selects the six numeric aggregations with default SUM |
| Aggregations.BindTextColumn | core/src/main/java/org/pentaho/agilebi/modeler/nodes/BaseAggregationMetaDataNode.java:156-159 | a non-numeric column offers and selects COUNT, COUNT_DISTINCT with default NONE, which is not among them |
| Aggregations.SetLogicalColumnIdempotent | core/src/main/java/org/pentaho/agilebi/modeler/nodes/BaseAggregationMetaDataNode.java:142-152 | binding the same column twice changes nothing the second time |
| Aggregations.SetDefaultAggregation | core/src/main/java/org/pentaho/agilebi/modeler/nodes/BaseAggregationMetaDataNode.java:133-138 | stores the default and changes nothing else |
| Aggregations.GetDefaultAggregation | core/src/main/java/org/pentaho/agilebi/modeler/nodes/BaseAggregationMetaDataNode.java:116-131 | none and no change when unbound; a stored default is returned unchanged; otherwise SUM for numeric, COUNT for other columns is returned and stored |
| Aggregations.GetDefaultAggregationStable | core/src/main/java/org/pentaho/agilebi/modeler/nodes/BaseAggregationMetaDataNode.java:121-130 | the lazily stored default is what every later call returns, with no further change |
| Aggregations.DefaultRoundTrip | core/src/main/java/org/pentaho/agilebi/modeler/nodes/BaseAggregationMetaDataNode.java:133-138 | a default set on a bound node is the default it reports |
| Aggregations.GetFormat | core/src/main/java/org/pentaho/agilebi/modeler/nodes/BaseAggregationMetaDataNode.java:81-87 | never empty: "NONE" for a null or empty format, the stored format otherwise |
| Aggregations.FormatRoundTrip | core/src/main/java/org/pentaho/agilebi/modeler/nodes/BaseAggregationMetaDataNode.java:89-94 | a non-empty format set reads back unchanged; a null or empty one reads back as "NONE" |
| Aggregations.SetFormat | core/src/main/java/org/pentaho/agilebi/modeler/nodes/BaseAggregationMetaDataNode.java:90-94 | stores the format and changes nothing else |
| Aggregations.SetName | core/src/main/java/org/pentaho/agilebi/modeler/nodes/BaseAggregationMetaDataNode.java:71-79 | a null name is a no-op; otherwise the node and its bound column take the name and nothing else changes |
| Aggregations.SetNameLastWins | core/src/main/java/org/pentaho/agilebi/modeler/nodes/BaseAggregationMetaDataNode.java:71-79 | renaming twice equals renaming once to the later name, node and column alike |
| Aggregations.Equals | core/src/main/java/org/pentaho/agilebi/modeler/nodes/BaseAggregationMetaDataNode.java:208-226 | one object is equal to itself; if either node is unbound, only the same object is equal; two nodes bound to columns with the same id are equal |
| Aggregations.EqualsProperties | core/src/main/java/org/pentaho/agilebi/modeler/nodes/BaseAggregationMetaDataNode.java:208-226 | equality is reflexive and symmetric; an unbound node equals only itself; distinct bound nodes are equal exactly when their column ids agree |
| Candidates.AggNodeOnDrop | core/src/main/java/org/pentaho/agilebi/modeler/nodes/BaseAggregationMetaDataNode.java:232-235 | every drop onto a measure or member property is refused and changes nothing |
| Siblings.CheckNames | core/src/main/java/org/pentaho/agilebi/modeler/nodes/LevelMetaData.java:175-202 | the name-map scan computes: valid iff all children valid with distinct names, the gathered messages, and each child's per-index outcome |
| Siblings.SettledMeaning | core/src/main/java/org/pentaho/agilebi/modeler/nodes/MeasuresCollection.java:85-103 | after the scan a child is valid iff it was valid and has no namesake; a repeating child, and a valid first child of a repeated name, carry the duplicate message, added at most once; a first child that was already invalid is left as it was; nothing else changes |
| Siblings.AllClearMeansDistinct | core/src/main/java/org/pentaho/agilebi/modeler/nodes/MeasuresCollection.java:82-86 | the scan's verdict is: every child valid and no two children share a name |
| Siblings.RepeatedNamesReported | core/src/main/java/org/pentaho/agilebi/modeler/nodes/LevelMetaData.java:180-185 | every name borne by two children puts its duplicate message among the parent's gathered messages |
| Siblings.CollectedMeaning | core/src/main/java/org/pentaho/agilebi/modeler/nodes/MeasuresCollection.java:84-90 | as a set, the parent's messages are exactly the children's messages and each repeat's duplicate message |
| Siblings.SettledIdempotent | core/src/main/java/org/pentaho/agilebi/modeler/nodes/LevelMetaData.java:187-198 | scanning the scanned children changes none of them |
| Siblings.CollectedAfterSettle | core/src/main/java/org/pentaho/agilebi/modeler/nodes/LevelMetaData.java:179-185 | a second scan gathers the same set of messages |
| Levels.IsTimeLevel | core/src/main/java/org/pentaho/agilebi/modeler/nodes/LevelMetaData.java:61-67 | a level without a parent hierarchy is not a time level; with one, it is a time level exactly when the hierarchy is a time hierarchy |
| Levels.Validate | core/src/main/java/org/pentaho/agilebi/modeler/nodes/LevelMetaData.java:164-204 | valid iff base valid, the time rule holds (time hierarchy needs a non-DUMMY time role), member properties valid with distinct names; messages include the base messages, the time message when the rule fails, every repeated name and all member messages, and nothing else |
| Levels.ValidateIdempotent | core/src/main/java/org/pentaho/agilebi/modeler/nodes/LevelMetaData.java:165-203 | validating twice yields the same verdict, member properties and message set |
| Levels.AcceptsDrop | core/src/main/java/org/pentaho/agilebi/modeler/nodes/LevelMetaData.java:120-133 | only fields and bound member properties, exactly when their physical table is the level's |
| Levels.AcceptsNoStructure | core/src/main/java/org/pentaho/agilebi/modeler/nodes/LevelMetaData.java:126-132 | unbound member properties, measures, tables, levels, hierarchies, dimensions, both collections and the root are refused |
| Levels.OnDrop | core/src/main/java/org/pentaho/agilebi/modeler/nodes/LevelMetaData.java:135-162 | other kinds refused; member property reparented before the checks; unbound level or null factory result fails with a null reference; for a field (as the factory makes it) or a reparented member property: refused iff unbound, different-table conflict iff its logical table differs, else dropped as that node; the level never changes |
| Levels.MemberPropertyDropAgrees | core/src/main/java/org/pentaho/agilebi/modeler/nodes/LevelMetaData.java:126-158 | when physical and logical table ids agree, a bound member property is accepted iff its drop succeeds, else the drop fails with the different-table conflict |
| Levels.FieldDropAgrees | core/src/main/java/org/pentaho/agilebi/modeler/nodes/LevelMetaData.java:123-158 | for a field whose factory makes a member property bound to its own column, accepted iff its drop succeeds |
| Levels.TableRestriction | core/src/main/java/org/pentaho/agilebi/modeler/nodes/LevelMetaData.java:211-226 | own table when the level has member properties and a column; else the table of the first other sibling with a column; none when there is no such sibling |
| Levels.FirstOtherBound | core/src/main/java/org/pentaho/agilebi/modeler/nodes/LevelMetaData.java:218-224 | some table iff some other sibling has a column, and then the table of the first such sibling |
| Levels.FirstNamed | core/src/main/java/org/pentaho/agilebi/modeler/nodes/LevelMetaData.java:228-235 | some child iff a child's name matches ignoring case, and then the first such child |
| Levels.LatitudeField | core/src/main/java/org/pentaho/agilebi/modeler/nodes/LevelMetaData.java:228-235 | the first member property named "latitude" ignoring ASCII case, or none when no member property is so named |
| Levels.LongitudeField | core/src/main/java/org/pentaho/agilebi/modeler/nodes/LevelMetaData.java:237-244 | the first member property named "longitude" ignoring ASCII case, or none when no member property is so named |
| Measures.New | core/src/main/java/org/pentaho/agilebi/modeler/nodes/MeasuresCollection.java:33-42 | a new collection is named "Measures", empty, without messages and invalid |
| Measures.Validate | core/src/main/java/org/pentaho/agilebi/modeler/nodes/MeasuresCollection.java:70-108 | valid iff non-empty with valid, distinctly named measures; an empty one has only the at-least-one message; messages are exactly that one (only when empty), measure messages and duplicate messages, with every repeated name reported |
| Measures.ValidateForgetsPrevious | core/src/main/java/org/pentaho/agilebi/modeler/nodes/MeasuresCollection.java:72-73 | the previous verdict and messages do not influence validation |
| Measures.ValidateIdempotent | core/src/main/java/org/pentaho/agilebi/modeler/nodes/MeasuresCollection.java:71-108 | validating twice yields the same verdict, measures and message set |
| Measures.AtLeastOneMeasure | core/src/main/java/org/pentaho/agilebi/modeler/nodes/MeasuresCollection.java:75-79 | a new collection stays invalid with the at-least-one message; one valid measure makes it valid |
| Measures.IsFactTable | core/src/main/java/org/pentaho/agilebi/modeler/nodes/MeasuresCollection.java:166-181 | only a multi-table model of version 2.0 or later has fact tables; there a table is one exactly when its FACT_TABLE property is set and not FALSE |
| Measures.AcceptsDrop | core/src/main/java/org/pentaho/agilebi/modeler/nodes/MeasuresCollection.java:140-181 | only fields, tables and measures; every measure; a field or table iff single-table model or version >= 2.0, several tables and FACT_TABLE set and not FALSE |
| Measures.AcceptsNoStructure | core/src/main/java/org/pentaho/agilebi/modeler/nodes/MeasuresCollection.java:142-147 | the dimensions collection, the root, the collection kind itself, dimensions, hierarchies, levels and member properties are refused |
| Measures.NoFactTablesBeforeVersion2 | core/src/main/java/org/pentaho/agilebi/modeler/nodes/MeasuresCollection.java:166-181 | before version 2.0 a field is accepted iff the model has exactly one table |
| Measures.Appended | core/src/main/java/org/pentaho/agilebi/modeler/nodes/MeasuresCollection.java:193-203 | the measures a table drop appends: exactly the present factory results for every field after the first, reparented, at most one per field, in field order when all are present |
| Measures.OnDrop | core/src/main/java/org/pentaho/agilebi/modeler/nodes/MeasuresCollection.java:183-233 | other kinds refused; a table returns the first field's measure (none for no fields or a null first) and appends the rest that are present, in order, even after a null first; a null field measure is refused; a measure is reparented first; from 2.0 unbound refused, non-fact in multi-table fails |
| Measures.FieldDropAgrees | core/src/main/java/org/pentaho/agilebi/modeler/nodes/MeasuresCollection.java:151-226 | a field whose factory makes a measure bound to its own table drops when accepted, and fails with the non-fact conflict when refused in a multi-table 2.0 model |
| Measures.FieldRefusedYetDropped | core/src/main/java/org/pentaho/agilebi/modeler/nodes/MeasuresCollection.java:151-226 | a field refused by acceptsDrop before 2.0 in a multi-table model, or from 2.0 in a model with no tables, is still dropped as its (non-null) measure (once bound, from 2.0) |
| Measures.AcceptedMeasureMayNotDrop | core/src/main/java/org/pentaho/agilebi/modeler/nodes/MeasuresCollection.java:205-227 | from 2.0 an accepted measure is refused when unbound and fails when from a non-fact table of a multi-table model |
| Measures.TableDropIgnoresFactRule | core/src/main/java/org/pentaho/agilebi/modeler/nodes/MeasuresCollection.java:189-204 | a table drop never fails, and drops whenever the first field yields a measure |

## Left out

- Geographic-role inference (GeoContext): its implementation is not part of this model. The names "latitude" and "longitude" are assumed to be the values of GeoContext.LATITUDE and GeoContext.LONGITUDE.
- Property-change listeners and `firePropertyChange`: these are observer plumbing. The revalidation that adding a child triggers (`onAdd`) is a separate call to `Validate`.
- Collaborators outside these three classes become parameters or assumptions. The workspace factories, `super.validate()`, `super.setLogicalColumn`, `super.setName`, `setParent`, `addAll` and `invalidate` are not part of this model. `super.setLogicalColumn` and `super.setName` are taken to be plain stores of the column and the name, which is what the frame clauses of `Aggregations.SetLogicalColumn` and `Aggregations.SetName` rest on. `invalidate` is taken to clear the valid flag only. `addAll` is taken to append and set each parent link, as `onAdd` does.
- Parsing AGILE_BI_VERSION with `Float.parseFloat` is replaced by a boolean "version at least 2.0". A malformed version string, which would throw, is not modelled.
- UI, images, property forms, alt text and the localised message lookup are left out. The display name, field and level type descriptions, format strings and locale are also left out.
- LevelMetaData's `hashCode`, its `equals(LevelMetaData)` overload and `compareChildren` are left out. `compareChildren` is the name comparison behind the level's unique child list; adding children is not modelled.
- Levels.AcceptsDrop: it requires a bound level. The source dereferences the level's column before it looks at the candidate, so an unbound level throws an unwrapped NullPointerException.
- Levels.OnDrop: the logical-table test compares ids by value. The source uses Java `!=` on the id strings, a reference comparison, so equal ids held in distinct string objects would also fail there.
- Levels.OnDrop: the member property that a field becomes is whatever the factory returns. Whether the factory also attaches it to the level is outside this model.
- Levels.FirstNamed: case is ignored for ASCII letters only. Java's `equalsIgnoreCase` also folds non-ASCII letters, such as the dotless ı and the dotted İ against i.
- Levels.LatitudeField: inherits the ASCII-only case folding of `Levels.FirstNamed`. A member property named "latıtude" or "LATİTUDE" is found by `getLatitudeField` (LevelMetaData.java:230) but not by this function.
- Levels.LongitudeField: inherits the ASCII-only case folding of `Levels.FirstNamed`. A member property named "longıtude" or "LONGİTUDE" is found by `getLongitudeField` (LevelMetaData.java:239) but not by this function.
- Measures.OnDrop: a null factory result in a table drop is skipped when the rest are appended. The code hands the list to `addAll` with its nulls, and what `addAll` does with a null is outside this model.
- Measures.OnDrop: a measure's fact-table test reads the physical table of the column's logical table, as the source does. The physical column's own table is not consulted.
- Levels.ValidateIdempotent: it rests on an assumption about the base-class `validate()`, which is outside this model (LevelMetaData.java:166): that it resets the valid flag and the message list, and reads nothing validation changes, such as the member properties' flags and messages. Under that assumption both calls receive the same `BaseValidity`, which is what the lemma takes.
- Aggregations.SetName: each node holds its own copy of the column, where Java shares one `LogicalColumn` object. The rename at BaseAggregationMetaDataNode.java:76 therefore reaches only this node's copy, not the domain or other nodes bound to the same column. Aliasing of the aggregation lists is not modelled either: after a fresh binding `selectedAggregations` is the same list object as `possibleAggregations` (line 170) or as the column's own list (line 168), so later in-place edits of one show in the other. No modelled property reads column names or edits a list in place.
- Aggregations.EqualsProperties: object identity is the node `id`. Java's `equals(null)` and comparisons with other classes are not modelled.
- A child list that holds the same object twice is not modelled: children are values.

=== FILE: aggregations.dfy ===
/**
 A column-backed node with aggregations (BaseAggregationMetaDataNode): the
 record shared by measures and member properties. Binding a column derives
 the possible, default and selected aggregations from the column's data type,
 unless the column carries a stored aggregation type or list.
 */
module Aggregations {
  import opened Model

  const FormatNone: string := "NONE"

  datatype AggNode = AggNode(
    id: NodeId,
    name: string,
    parent: Option<NodeId>,
    column: Option<LogicalColumn>,
    format: Option<string>,
    defaultAggregation: Option<AggregationType>,
    possibleAggregations: seq<AggregationType>,
    selectedAggregations: seq<AggregationType>,
    valid: bool,
    messages: seq<Message>)

  /** The aggregations offered for a numeric column, in the order the UI lists them:
      no repeats, never NONE. */
  function NumericAggregationTypes(): (r: seq<AggregationType>)
    ensures forall i, j :: 0 <= i < j < |r| ==> r[i] != r[j]
    ensures NoAggregation !in r && Sum in r && Count in r && CountDistinct in r
  {
    [Sum, Average, Minimum, Maximum, Count, CountDistinct]
  }

  /** The aggregations offered for any other column: the counting ones only, each a numeric
      aggregation too. */
  function TextAggregationTypes(): (r: seq<AggregationType>)
    ensures forall i, j :: 0 <= i < j < |r| ==> r[i] != r[j]
    ensures forall a :: a in r ==> a in NumericAggregationTypes()
    ensures Count in r && CountDistinct in r
    ensures NoAggregation !in r && Sum !in r
  {
    [Count, CountDistinct]
  }

  /** The aggregations offered for a column of type `t`. */
  function PossibleFor(t: DataType): seq<AggregationType>
  {
    if t == Numeric then NumericAggregationTypes() else TextAggregationTypes()
  }

  /** True when binding `col` to `n` recomputes the aggregations: nothing was bound before,
      or the data type changes. */
  predicate Recomputes(n: AggNode, col: LogicalColumn)
  {
    n.column.None? || n.column.value.dataType != col.dataType
  }

  /** setLogicalColumn: bind `col` (or clear the binding when it is absent). */
  function SetLogicalColumn(n: AggNode, col: Option<LogicalColumn>): (r: AggNode)
    ensures r.column == col
    // binding null only clears the column
    ensures col.None? ==> r == n.(column := None)
    // rebinding a column of the same data type keeps every derived aggregation
    ensures col.Some? && !Recomputes(n, col.value) ==> r == n.(column := col)
    // a fresh binding derives the possible aggregations from the data type ...
    ensures col.Some? && Recomputes(n, col.value) ==>
              r.possibleAggregations == PossibleFor(col.value.dataType)
    // ... the default from the stored type, else SUM for numbers and NONE otherwise ...
    ensures col.Some? && Recomputes(n, col.value) ==>
              r.defaultAggregation ==
                (if col.value.aggregationType.Some? then col.value.aggregationType
                 else if col.value.dataType == Numeric then Some(Sum) else Some(NoAggregation))
    // ... and the selection from the stored list, else every possible aggregation
    ensures col.Some? && Recomputes(n, col.value) ==>
              r.selectedAggregations ==
                (if |col.value.aggregationList| > 0 then col.value.aggregationList
                 else r.possibleAggregations)
    ensures r.id == n.id && r.name == n.name && r.parent == n.parent && r.format == n.format
    ensures r.valid == n.valid && r.messages == n.messages
  {
    match col
    case None => n.(column := None)
    case Some(c) =>
      if !Recomputes(n, c) then n.(column := col)
      else
        var possible := PossibleFor(c.dataType);
        var typeDefault := if c.dataType == Numeric then Sum else NoAggregation;
        var default := if c.aggregationType.Some? then c.aggregationType.value else typeDefault;
        var selected := if |c.aggregationList| > 0 then c.aggregationList else possible;
        n.(column := col, possibleAggregations := possible,
           defaultAggregation := Some(default), selectedAggregations := selected)
  }

  /** A numeric column without stored aggregations, bound to a node that had no column,
      offers the six numeric aggregations, all selected, with SUM as default. */
  lemma BindNumericColumn(n: AggNode, c: LogicalColumn)
    requires n.column.None? && c.dataType == Numeric
    requires c.aggregationType.None? && |c.aggregationList| == 0
    ensures SetLogicalColumn(n, Some(c)).possibleAggregations == [Sum, Average, Minimum, Maximum, Count, CountDistinct]
    ensures SetLogicalColumn(n, Some(c)).selectedAggregations == [Sum, Average, Minimum, Maximum, Count, CountDistinct]
    ensures SetLogicalColumn(n, Some(c)).defaultAggregation == Some(Sum)
  {
  }

  /** A non-numeric column without stored aggregations offers COUNT and COUNT_DISTINCT,
      both selected, and its default is NONE (which is not itself offered). */
  lemma BindTextColumn(n: AggNode, c: LogicalColumn)
    requires n.column.None? && c.dataType != Numeric
    requires c.aggregationType.None? && |c.aggregationList| == 0
    ensures SetLogicalColumn(n, Some(c)).possibleAggregations == [Count, CountDistinct]
    ensures SetLogicalColumn(n, Some(c)).selectedAggregations == [Count, CountDistinct]
    ensures SetLogicalColumn(n, Some(c)).defaultAggregation == Some(NoAggregation)
    ensures NoAggregation !in SetLogicalColumn(n, Some(c)).possibleAggregations
  {
  }

  /** Binding twice in a row with the same column changes nothing the second time. */
  lemma SetLogicalColumnIdempotent(n: AggNode, col: Option<LogicalColumn>)
    ensures SetLogicalColumn(SetLogicalColumn(n, col), col) == SetLogicalColumn(n, col)
  {
  }

  /** setDefaultAggregation: store `agg` (possibly null) as the default. */
  function SetDefaultAggregation(n: AggNode, agg: Option<AggregationType>): (r: AggNode)
    ensures r.defaultAggregation == agg
    ensures r.(defaultAggregation := n.defaultAggregation) == n
  {
    n.(defaultAggregation := agg)
  }

  /**
   getDefaultAggregation: no column, no default. Otherwise the stored default,
   computed and stored on first use (SUM for numeric columns, COUNT otherwise)
   when none is stored. Returns the answer and the node after the call.
   */
  function GetDefaultAggregation(n: AggNode): (r: (Option<AggregationType>, AggNode))
    ensures n.column.None? ==> r.0.None? && r.1 == n
    ensures n.column.Some? ==> r.0.Some? && r.1 == n.(defaultAggregation := r.0)
    ensures n.column.Some? && n.defaultAggregation.Some? ==> r.0 == n.defaultAggregation && r.1 == n
    ensures n.column.Some? && n.defaultAggregation.None? ==>
              r.0 == Some(if n.column.value.dataType == Numeric then Sum else Count)
  {
    if n.column.None? then (None, n)
    else if n.defaultAggregation.Some? then (n.defaultAggregation, n)
    else
      var agg := if n.column.value.dataType == Numeric then Sum else Count;
      (Some(agg), n.(defaultAggregation := Some(agg)))
  }

  /** The lazily computed default is stable: asking again returns it and changes nothing. */
  lemma GetDefaultAggregationStable(n: AggNode)
    ensures GetDefaultAggregation(GetDefaultAggregation(n).1) == GetDefaultAggregation(n)
  {
  }

  /** What was stored with setDefaultAggregation is what a bound node reports. */
  lemma DefaultRoundTrip(n: AggNode, agg: AggregationType)
    requires n.column.Some?
    ensures GetDefaultAggregation(SetDefaultAggregation(n, Some(agg))).0 == Some(agg)
  {
  }

  /** getFormat: "NONE" for a null or empty format, the stored format otherwise. */
  function GetFormat(n: AggNode): (r: string)
    ensures r != ""
    ensures n.format.Some? && n.format.value != "" ==> r == n.format.value
    ensures n.format.None? || n.format == Some("") ==> r == FormatNone
  {
    if n.format.None? || n.format.value == "" then FormatNone else n.format.value
  }

  /** setFormat: store the format as given. */
  function SetFormat(n: AggNode, format: Option<string>): (r: AggNode)
    ensures r.format == format
    ensures r.(format := n.format) == n
  {
    n.(format := format)
  }

  /** A non-empty format reads back unchanged; clearing it reads back as "NONE". */
  lemma FormatRoundTrip(n: AggNode, f: string)
    ensures f != "" ==> GetFormat(SetFormat(n, Some(f))) == f
    ensures GetFormat(SetFormat(n, Some(""))) == FormatNone
    ensures GetFormat(SetFormat(n, None)) == FormatNone
  {
  }

  /** setName: a null name is ignored; otherwise the node and its bound column are renamed. */
  function SetName(n: AggNode, name: Option<string>): (r: AggNode)
    ensures name.None? ==> r == n
    ensures name.Some? ==> r.name == name.value
    ensures r.column.Some? <==> n.column.Some?
    ensures name.Some? && n.column.Some? ==> r.column == Some(n.column.value.(name := name.value))
    ensures r.(name := n.name, column := n.column) == n
  {
    match name
    case None => n
    case Some(s) =>
      var col := if n.column.Some? then Some(n.column.value.(name := s)) else None;
      n.(name := s, column := col)
  }

  /** Renaming twice is renaming once to the later name, column included. */
  lemma SetNameLastWins(n: AggNode, first: string, second: string)
    ensures SetName(SetName(n, Some(first)), Some(second)) == SetName(n, Some(second))
  {
  }

  /** equals: the same object, or both bound to columns with the same id. */
  function Equals(a: AggNode, b: AggNode): (r: bool)
    ensures a.id == b.id ==> r
    ensures a.column.None? || b.column.None? ==> (r <==> a.id == b.id)
    ensures a.column.Some? && b.column.Some? && a.column.value.id == b.column.value.id ==> r
  {
    a.id == b.id
    || (a.column.Some? && b.column.Some? && a.column.value.id == b.column.value.id)
  }

  /** Equality is reflexive and symmetric; an unbound node equals only itself, and two
      bound nodes are equal exactly when their columns share an id or they are one object. */
  lemma EqualsProperties(a: AggNode, b: AggNode)
    ensures Equals(a, a)
    ensures Equals(a, b) == Equals(b, a)
    ensures a.column.None? ==> (Equals(a, b) <==> a.id == b.id)
    ensures a.id != b.id && a.column.Some? && b.column.Some? ==>
              (Equals(a, b) <==> a.column.value.id == b.column.value.id)
  {
  }
}

=== FILE: candidates.dfy ===
/**
 What can be dragged onto a node of the model tree, and what a drop returns.
 Java's `instanceof` dispatch on the dropped object becomes one tagged datatype;
 the exceptions a drop raises become `Conflict`, a null return `Rejected`.
 */
module Candidates {
  import opened Model
  import opened Aggregations

  /** The kinds of object a drop can carry. Only the kinds whose content a drop rule reads
      carry a payload. */
  datatype Candidate =
    | FieldItem(field: AvailableField)
    | TableItem(table: AvailableTable)
    | MemberPropertyItem(memberProperty: AggNode)
    | MeasureItem(measure: AggNode)
    | LevelItem
    | HierarchyItem
    | DimensionItem
    | DimensionsCollectionItem
    | MeasuresCollectionItem
    | RootItem

  /** Why a drop failed with an exception (wrapped as a ModelerException). */
  datatype Failure =
    | IllegalState(key: string)   // a drop rule's IllegalStateException with its message key
    | NullReference               // a NullPointerException inside the drop

  datatype Outcome<+T> = Rejected | Conflict(failure: Failure) | Dropped(node: T)

  /**
   A drop's full effect: its outcome, the target node afterwards, and the dropped
   object afterwards (a drop can reparent it whatever the outcome).
   */
  datatype DropResult<+S> = DropResult(outcome: Outcome<AggNode>, target: S, candidate: Candidate)

  const MemberPropFromDifferentTable: string := "DROP.ERROR.MEMBER_PROP_FROM_DIFFERENT_TABLE"
  const NonFactTable: string := "DROP.ERROR.NON_FACT_TABLE"

  /** onDrop of a measure or member property node: every drop is refused, the node and the
      dropped object stay as they were. */
  function AggNodeOnDrop(n: AggNode, c: Candidate): (r: DropResult<AggNode>)
    ensures r.outcome.Rejected?
    ensures r.target == n && r.candidate == c
  {
    DropResult(Rejected, n, c)
  }
}

=== FILE: levels.dfy ===
/**
 A level of a hierarchy (LevelMetaData): bound to one column, holding member
 properties that must come from the level's own table.
 */
module Levels {
  import opened Model
  import opened Aggregations
  import opened Siblings
  import opened Candidates

  datatype TimeKind = DummyTime | TimeUnit(unitName: string)

  /** The data role annotation of a level; TimeRole.DUMMY is `TimeRole(DummyTime)`. */
  datatype DataRole = TimeRole(kind: TimeKind) | OtherRole(roleName: string)

  /** A level; its member properties are `children`, in order. */
  datatype Level = Level(
    id: NodeId,
    name: string,
    column: Option<LogicalColumn>,
    dataRole: Option<DataRole>,
    children: seq<AggNode>,
    valid: bool,
    messages: seq<Message>)

  /** The parent hierarchy of a level, with all of its levels in order. */
  datatype Hierarchy = Hierarchy(id: NodeId, isTimeHierarchy: bool, levels: seq<Level>)

  const Latitude: string := "latitude"
  const Longitude: string := "longitude"

  /** getValidationMessageKey: level messages live under "validation.level.". */
  function ValidationKey(key: string): string
  {
    "validation.level." + key
  }

  function TimeLevelTypeNotSet(level: Level): Message
  {
    Message(ValidationKey("TIME_LEVEL_TYPE_NOT_SET"), [level.name])
  }

  const DuplicateKey: string := ValidationKey("DUPLICATE_MEMBER_PROPERTY_NAMES")

  /** isTimeLevel: the level sits in a hierarchy and that hierarchy is a time hierarchy. */
  function IsTimeLevel(parent: Option<Hierarchy>): (r: bool)
    ensures parent.None? ==> !r
    ensures parent.Some? ==> (r <==> parent.value.isTimeHierarchy)
  {
    parent.Some? && parent.value.isTimeHierarchy
  }

  /** The data role is a time role other than DUMMY. */
  predicate HasTimeType(role: Option<DataRole>)
  {
    role.Some? && role.value.TimeRole? && role.value.kind != DummyTime
  }

  /** The time rule fails: a level of a time hierarchy without a proper time role. */
  predicate TimeRuleFails(level: Level, parent: Option<Hierarchy>)
  {
    IsTimeLevel(parent) && !HasTimeType(level.dataRole)
  }

  /**
   validate: starting from the base-class outcome, apply the time rule, then fold
   in the member properties' validity and messages and flag repeated names.
   */
  function Validate(level: Level, base: BaseValidity, parent: Option<Hierarchy>): (r: Level)
    ensures r.valid <==>
              base.valid && !TimeRuleFails(level, parent)
              && (forall j :: 0 <= j < |level.children| ==> level.children[j].valid)
              && (forall j, k :: 0 <= j < k < |level.children| ==>
                    level.children[j].name != level.children[k].name)
    ensures TimeRuleFails(level, parent) ==> TimeLevelTypeNotSet(level) in r.messages
    ensures forall j, k :: 0 <= j < k < |level.children| && level.children[j].name == level.children[k].name ==>
              DuplicateMessage(DuplicateKey, level.children[j].name) in r.messages
    ensures forall m :: m in base.messages ==> m in r.messages
    ensures forall j, m :: 0 <= j < |level.children| && m in level.children[j].messages ==> m in r.messages
    // and nothing else is reported
    ensures forall m :: m in r.messages ==>
              m in base.messages
              || (TimeRuleFails(level, parent) && m == TimeLevelTypeNotSet(level))
              || (exists j :: 0 <= j < |level.children| && m in level.children[j].messages)
              || (exists j :: 0 <= j < |level.children| && Earlier(level.children, j)
                               && m == DuplicateMessage(DuplicateKey, level.children[j].name))
    ensures r.children == Settled(level.children, DuplicateKey)
    ensures r.(valid := level.valid, messages := level.messages, children := level.children) == level
  {
    var timeFails := TimeRuleFails(level, parent);
    var valid := base.valid && !timeFails && AllClear(level.children);
    var messages := base.messages + (if timeFails then [TimeLevelTypeNotSet(level)] else [])
                    + Collected(level.children, DuplicateKey);
    AllClearMeansDistinct(level.children);
    CollectedMeaning(level.children, DuplicateKey, |level.children|);
    RepeatedNamesReported(level.children, DuplicateKey);
    level.(valid := valid, messages := messages, children := Settled(level.children, DuplicateKey))
  }

  /** Validating twice gives the same validity, the same member properties and the same set
      of messages. */
  lemma {:induction false} ValidateIdempotent(level: Level, base: BaseValidity, parent: Option<Hierarchy>)
    ensures Validate(Validate(level, base, parent), base, parent).valid == Validate(level, base, parent).valid
    ensures Validate(Validate(level, base, parent), base, parent).children == Validate(level, base, parent).children
    ensures forall m :: m in Validate(Validate(level, base, parent), base, parent).messages <==>
                        m in Validate(level, base, parent).messages
  {
    var v := Validate(level, base, parent);
    SettledIdempotent(level.children, DuplicateKey);
    AllClearAfterSettle(level.children, DuplicateKey);
    CollectedAfterSettle(level.children, DuplicateKey);
    assert TimeLevelTypeNotSet(v) == TimeLevelTypeNotSet(level);
  }

  /**
   acceptsDrop: a field, or a member property bound to a column, whose physical
   table is the level's own. `LevelMetaData.acceptsDrop` reads the level's column
   before looking at the candidate, so it needs a bound level.
   */
  function AcceptsDrop(level: Level, c: Candidate): (r: bool)
    requires level.column.Some?
    ensures r ==> c.FieldItem? || (c.MemberPropertyItem? && c.memberProperty.column.Some?)
    ensures c.FieldItem? ==> (r <==> c.field.physical.table.id == level.column.value.physical.table.id)
    ensures c.MemberPropertyItem? && c.memberProperty.column.Some? ==>
              (r <==> c.memberProperty.column.value.physical.table.id == level.column.value.physical.table.id)
  {
    var mine := level.column.value.physical.table.id;
    match c
    case FieldItem(f) => mine == f.physical.table.id
    case MemberPropertyItem(n) => n.column.Some? && mine == n.column.value.physical.table.id
    case _ => false
  }

  /** A level accepts no structural node and no unbound member property. */
  lemma AcceptsNoStructure(level: Level, n: AggNode)
    requires level.column.Some?
    ensures n.column.None? ==> !AcceptsDrop(level, MemberPropertyItem(n))
    ensures !AcceptsDrop(level, MeasureItem(n))
    ensures !AcceptsDrop(level, LevelItem) && !AcceptsDrop(level, HierarchyItem)
    ensures !AcceptsDrop(level, DimensionItem) && !AcceptsDrop(level, DimensionsCollectionItem)
    ensures !AcceptsDrop(level, MeasuresCollectionItem) && !AcceptsDrop(level, RootItem)
    ensures forall t :: !AcceptsDrop(level, TableItem(t))
  {
  }

  /**
   The member property checked by onDrop after it was produced or reparented;
   `None` is a null node. The level's column is read first, then the node's.
   */
  function CheckMemberProperty(level: Level, mp: Option<AggNode>): Outcome<AggNode>
  {
    if level.column.None? || mp.None? then Conflict(NullReference)
    else if mp.value.column.None? then Rejected
    else if mp.value.column.value.logicalTable.id != level.column.value.logicalTable.id
    then Conflict(IllegalState(MemberPropFromDifferentTable))
    else Dropped(mp.value)
  }

  /**
   onDrop: a field becomes a member property through the workspace factory
   `makeMemberProperty`, which may produce none; a member property is
   reparented to the level first. Either is then refused when unbound, and
   fails when its logical table is not the level's. Anything else is refused.
   The level itself is never changed.
   */
  function OnDrop(level: Level, c: Candidate, makeMemberProperty: AvailableField -> Option<AggNode>): (r: DropResult<Level>)
    ensures r.target == level
    ensures !c.FieldItem? && !c.MemberPropertyItem? ==> r.outcome.Rejected? && r.candidate == c
    ensures c.FieldItem? ==> r.candidate == c
    // reparenting happens before the checks, so it survives a failed drop
    ensures c.MemberPropertyItem? ==>
              r.candidate == MemberPropertyItem(c.memberProperty.(parent := Some(level.id)))
    // an unbound level, or a null node from the factory, throws a NullPointerException
    ensures (c.FieldItem? || c.MemberPropertyItem?) ==>
              (r.outcome == Conflict(NullReference) <==>
                 level.column.None? || (c.FieldItem? && makeMemberProperty(c.field).None?))
    ensures r.outcome.Conflict? ==>
              r.outcome.failure in {NullReference, IllegalState(MemberPropFromDifferentTable)}
    ensures r.outcome.Dropped? ==>
              level.column.Some? && r.outcome.node.column.Some?
              && r.outcome.node.column.value.logicalTable.id == level.column.value.logicalTable.id
    // a field: the factory's member property is judged as it comes
    ensures c.FieldItem? && level.column.Some? && makeMemberProperty(c.field).Some? ==>
              var mp := makeMemberProperty(c.field).value;
              (r.outcome.Rejected? <==> mp.column.None?)
              && (r.outcome.Conflict? <==>
                    mp.column.Some? && mp.column.value.logicalTable.id != level.column.value.logicalTable.id)
              && (r.outcome.Dropped? ==> r.outcome.node == mp)
    // a member property: judged after it was moved under the level
    ensures c.MemberPropertyItem? && level.column.Some? ==>
              var mp := c.memberProperty.(parent := Some(level.id));
              (r.outcome.Rejected? <==> mp.column.None?)
              && (r.outcome.Conflict? <==>
                    mp.column.Some? && mp.column.value.logicalTable.id != level.column.value.logicalTable.id)
              && (r.outcome.Dropped? ==> r.outcome.node == mp)
  {
    match c
    case FieldItem(f) =>
      DropResult(CheckMemberProperty(level, makeMemberProperty(f)), level, c)
    case MemberPropertyItem(n) =>
      var moved := n.(parent := Some(level.id));
      DropResult(CheckMemberProperty(level, Some(moved)), level, MemberPropertyItem(moved))
    case _ =>
      DropResult(Rejected, level, c)
  }

  /** A level's column whose physical and logical table ids identify the same table. */
  predicate SameTableIds(a: LogicalColumn, b: LogicalColumn)
  {
    (a.physical.table.id == b.physical.table.id) <==> (a.logicalTable.id == b.logicalTable.id)
  }

  /**
   acceptsDrop and onDrop agree on a bound member property whenever the physical
   and logical table ids tell the same story: accepted exactly when the drop
   succeeds, and otherwise the drop fails with the different-table conflict.
   */
  lemma MemberPropertyDropAgrees(level: Level, n: AggNode, mk: AvailableField -> Option<AggNode>)
    requires level.column.Some? && n.column.Some?
    requires SameTableIds(level.column.value, n.column.value)
    ensures AcceptsDrop(level, MemberPropertyItem(n)) <==>
              OnDrop(level, MemberPropertyItem(n), mk).outcome.Dropped?
    ensures !AcceptsDrop(level, MemberPropertyItem(n)) ==>
              OnDrop(level, MemberPropertyItem(n), mk).outcome == Conflict(IllegalState(MemberPropFromDifferentTable))
  {
  }

  /** The same agreement for a field, when the factory makes a member property bound to the
      field's own column. */
  lemma FieldDropAgrees(level: Level, f: AvailableField, mk: AvailableField -> Option<AggNode>)
    requires level.column.Some? && mk(f).Some? && mk(f).value.column.Some?
    requires mk(f).value.column.value.physical == f.physical
    requires SameTableIds(level.column.value, mk(f).value.column.value)
    ensures AcceptsDrop(level, FieldItem(f)) <==> OnDrop(level, FieldItem(f), mk).outcome.Dropped?
  {
  }

  /** A sibling other than the level `self` that is bound to a column. */
  predicate OtherBound(l: Level, self: NodeId)
  {
    l.id != self && l.column.Some?
  }

  /** The physical table of the first level in `levels`, other than `self`, with a column. */
  function FirstOtherBound(levels: seq<Level>, self: NodeId): (r: Option<PhysicalTable>)
    ensures r.Some? <==> exists i :: 0 <= i < |levels| && OtherBound(levels[i], self)
    ensures r.Some? ==>
              exists i :: 0 <= i < |levels| && OtherBound(levels[i], self)
                          && r.value == levels[i].column.value.physical.table
                          && forall j :: 0 <= j < i ==> !OtherBound(levels[j], self)
    decreases |levels|
  {
    if |levels| == 0 then None
    else if OtherBound(levels[0], self) then Some(levels[0].column.value.physical.table)
    else
      var rest := FirstOtherBound(levels[1..], self);
      assert forall i :: 0 < i < |levels| ==> levels[i] == levels[1..][i - 1];
      rest
  }

  /**
   getTableRestriction: the level's own table once it has member properties and
   a column; otherwise the table of the first other sibling with a column;
   otherwise none.
   */
  function TableRestriction(level: Level, parent: Option<Hierarchy>): (r: Option<PhysicalTable>)
    ensures |level.children| > 0 && level.column.Some? ==> r == Some(level.column.value.physical.table)
    ensures !(|level.children| > 0 && level.column.Some?) ==>
              (r.Some? <==> parent.Some? && exists i :: 0 <= i < |parent.value.levels|
                                                      && OtherBound(parent.value.levels[i], level.id))
    ensures !(|level.children| > 0 && level.column.Some?) && r.Some? ==>
              exists i :: 0 <= i < |parent.value.levels| && OtherBound(parent.value.levels[i], level.id)
                          && r.value == parent.value.levels[i].column.value.physical.table
                          && forall j :: 0 <= j < i ==> !OtherBound(parent.value.levels[j], level.id)
  {
    if |level.children| > 0 && level.column.Some? then Some(level.column.value.physical.table)
    else if parent.Some? && |parent.value.levels| > 0 then FirstOtherBound(parent.value.levels, level.id)
    else None
  }

  /** The first child whose name equals `target` ignoring case. */
  function FirstNamed(children: seq<AggNode>, target: string): (r: Option<AggNode>)
    ensures r.Some? <==> exists i :: 0 <= i < |children| && EqualsIgnoreCase(children[i].name, target)
    ensures r.Some? ==>
              exists i :: 0 <= i < |children| && children[i] == r.value
                          && EqualsIgnoreCase(children[i].name, target)
                          && forall j :: 0 <= j < i ==> !EqualsIgnoreCase(children[j].name, target)
    decreases |children|
  {
    if |children| == 0 then None
    else if EqualsIgnoreCase(children[0].name, target) then Some(children[0])
    else
      var rest := FirstNamed(children[1..], target);
      assert forall i :: 0 < i < |children| ==> children[i] == children[1..][i - 1];
      rest
  }

  /** getLatitudeField: the first member property named "latitude", ignoring case. */
  function LatitudeField(level: Level): (r: Option<AggNode>)
    ensures r.Some? ==> r.value in level.children && EqualsIgnoreCase(r.value.name, Latitude)
    ensures r.None? ==> forall j :: 0 <= j < |level.children| ==> !EqualsIgnoreCase(level.children[j].name, Latitude)
    ensures r.Some? ==>
              exists i :: 0 <= i < |level.children| && level.children[i] == r.value
                          && forall j :: 0 <= j < i ==> !EqualsIgnoreCase(level.children[j].name, Latitude)
  {
    FirstNamed(level.children, Latitude)
  }

  /** getLongitudeField: the first member property named "longitude", ignoring case. */
  function LongitudeField(level: Level): (r: Option<AggNode>)
    ensures r.Some? ==> r.value in level.children && EqualsIgnoreCase(r.value.name, Longitude)
    ensures r.None? ==> forall j :: 0 <= j < |level.children| ==> !EqualsIgnoreCase(level.children[j].name, Longitude)
    ensures r.Some? ==>
              exists i :: 0 <= i < |level.children| && level.children[i] == r.value
                          && forall j :: 0 <= j < i ==> !EqualsIgnoreCase(level.children[j].name, Longitude)
  {
    FirstNamed(level.children, Longitude)
  }
}

=== FILE: measures.dfy ===
/**
 The measures collection of a model (MeasuresCollection): the ordered measures
 of the cube, valid only when it holds at least one measure and the measures
 are valid with distinct names. acceptsDrop takes fields only from a fact
 table, or from the one table of a single-table model; onDrop is more lenient.
 */
module Measures {
  import opened Model
  import opened Aggregations
  import opened Siblings
  import opened Candidates

  datatype MeasuresCollection = MeasuresCollection(
    id: NodeId,
    name: string,
    children: seq<AggNode>,
    valid: bool,
    messages: seq<Message>)

  const RequiresAtLeastOneMeasure: Message :=
    Message("validation.measurecollecion.REQUIRES_AT_LEAST_ONE_MEASURE", [])

  const DuplicateMeasureNames: string := "validation.measurecollecion.DUPLICATE_MEASURE_NAMES"

  /** The constructor: an empty collection named "Measures" that starts out invalid. */
  function New(id: NodeId): (r: MeasuresCollection)
    ensures r.id == id && r.name == "Measures"
    ensures |r.children| == 0 && |r.messages| == 0
    ensures !r.valid
  {
    MeasuresCollection(id, "Measures", [], false, [])
  }

  /**
   validate: reset validity and messages, require at least one measure, then fold
   in the measures' validity and messages and flag repeated names.
   */
  function Validate(c: MeasuresCollection): (r: MeasuresCollection)
    ensures r.valid <==>
              |c.children| > 0
              && (forall j :: 0 <= j < |c.children| ==> c.children[j].valid)
              && (forall j, k :: 0 <= j < k < |c.children| ==> c.children[j].name != c.children[k].name)
    ensures |c.children| == 0 ==> r.messages == [RequiresAtLeastOneMeasure]
    ensures forall j, k :: 0 <= j < k < |c.children| && c.children[j].name == c.children[k].name ==>
              DuplicateMessage(DuplicateMeasureNames, c.children[j].name) in r.messages
    ensures forall j, m :: 0 <= j < |c.children| && m in c.children[j].messages ==> m in r.messages
    ensures forall m :: m in r.messages ==>
              (|c.children| == 0 && m == RequiresAtLeastOneMeasure)
              || (exists j :: 0 <= j < |c.children| && m in c.children[j].messages)
              || (exists j :: 0 <= j < |c.children| && Earlier(c.children, j)
                                && m == DuplicateMessage(DuplicateMeasureNames, c.children[j].name))
    ensures r.children == Settled(c.children, DuplicateMeasureNames)
    ensures r.id == c.id && r.name == c.name
  {
    var empty := |c.children| == 0;
    var valid := !empty && AllClear(c.children);
    var messages := (if empty then [RequiresAtLeastOneMeasure] else [])
                    + Collected(c.children, DuplicateMeasureNames);
    AllClearMeansDistinct(c.children);
    CollectedMeaning(c.children, DuplicateMeasureNames, |c.children|);
    RepeatedNamesReported(c.children, DuplicateMeasureNames);
    c.(valid := valid, messages := messages, children := Settled(c.children, DuplicateMeasureNames))
  }

  /** Validation ignores the collection's previous verdict and messages. */
  lemma ValidateForgetsPrevious(c: MeasuresCollection, valid: bool, messages: seq<Message>)
    ensures Validate(c.(valid := valid, messages := messages)) == Validate(c)
  {
  }

  /** Validating twice gives the same validity, the same measures and the same set of messages. */
  lemma {:induction false} ValidateIdempotent(c: MeasuresCollection)
    ensures Validate(Validate(c)).valid == Validate(c).valid
    ensures Validate(Validate(c)).children == Validate(c).children
    ensures forall m :: m in Validate(Validate(c)).messages <==> m in Validate(c).messages
  {
    SettledIdempotent(c.children, DuplicateMeasureNames);
    AllClearAfterSettle(c.children, DuplicateMeasureNames);
    CollectedAfterSettle(c.children, DuplicateMeasureNames);
  }

  /** A new collection stays invalid when validated; one valid measure makes it valid. */
  lemma {:induction false} AtLeastOneMeasure(id: NodeId, m: AggNode)
    ensures !Validate(New(id)).valid
    ensures Validate(New(id)).messages == [RequiresAtLeastOneMeasure]
    ensures m.valid ==> Validate(New(id).(children := [m])).valid
  {
    var one := New(id).(children := [m]);
    AllClearMeansDistinct(one.children);
  }

  /** isFactTable: only in a multi-table model of version 2.0 or later, and only when the
      table's FACT_TABLE property is set to something other than FALSE. */
  function IsFactTable(t: PhysicalTable, ws: Workspace): (r: bool)
    ensures r ==> ws.versionAtLeast2 && ws.tableCount > 1
    ensures ws.versionAtLeast2 && ws.tableCount > 1 ==> (r <==> t.factTable == OtherValue)
  {
    ws.versionAtLeast2 && ws.tableCount > 1 && t.factTable == OtherValue
  }

  /** A field or table is wanted when its table is a fact table or it is the only table. */
  predicate TableWanted(t: PhysicalTable, ws: Workspace)
  {
    IsFactTable(t, ws) || ws.tableCount == 1
  }

  /**
   acceptsDrop: every measure (to reorder), and a field or table exactly when its
   table is a fact table or the model has a single table; nothing else.
   */
  function AcceptsDrop(c: MeasuresCollection, cand: Candidate, ws: Workspace): (r: bool)
    ensures r ==> cand.FieldItem? || cand.TableItem? || cand.MeasureItem?
    ensures cand.MeasureItem? ==> r
    ensures cand.FieldItem? ==>
              (r <==> ws.tableCount == 1
                      || (ws.versionAtLeast2 && ws.tableCount > 1 && cand.field.physical.table.factTable == OtherValue))
    ensures cand.TableItem? ==>
              (r <==> ws.tableCount == 1
                      || (ws.versionAtLeast2 && ws.tableCount > 1 && cand.table.physical.factTable == OtherValue))
  {
    match cand
    case MeasureItem(_) => true
    case FieldItem(f) => TableWanted(f.physical.table, ws)
    case TableItem(t) => TableWanted(t.physical, ws)
    case _ => false
  }

  /** The collection refuses the structural kinds: the other collection, the root, and
      dimensions, hierarchies, levels and member properties. */
  lemma AcceptsNoStructure(c: MeasuresCollection, ws: Workspace, n: AggNode)
    ensures !AcceptsDrop(c, DimensionsCollectionItem, ws) && !AcceptsDrop(c, RootItem, ws)
    ensures !AcceptsDrop(c, MeasuresCollectionItem, ws)
    ensures !AcceptsDrop(c, DimensionItem, ws) && !AcceptsDrop(c, HierarchyItem, ws)
    ensures !AcceptsDrop(c, LevelItem, ws) && !AcceptsDrop(c, MemberPropertyItem(n), ws)
  {
  }

  /** Before version 2.0 only a single-table model takes fields: no table is a fact table. */
  lemma NoFactTablesBeforeVersion2(c: MeasuresCollection, ws: Workspace, f: AvailableField)
    requires !ws.versionAtLeast2
    ensures AcceptsDrop(c, FieldItem(f), ws) <==> ws.tableCount == 1
  {
  }

  /** The check onDrop applies to a measure produced from a field or dropped as such;
      `None` is a null measure, which is returned as it is. */
  function CheckMeasure(m: Option<AggNode>, ws: Workspace): Outcome<AggNode>
  {
    if m.None? then Rejected
    else if !ws.versionAtLeast2 then Dropped(m.value)
    else if m.value.column.None? then Rejected
    else if ws.tableCount > 1 && m.value.column.value.logicalTable.physical.factTable != OtherValue
    then Conflict(IllegalState(NonFactTable))
    else Dropped(m.value)
  }

  /** The measures to append: the given ones, reparented to the collection. */
  function Adopt(ms: seq<AggNode>, parent: NodeId): (r: seq<AggNode>)
    ensures |r| == |ms|
    ensures forall i :: 0 <= i < |ms| ==> r[i] == ms[i].(parent := Some(parent))
  {
    seq(|ms|, i requires 0 <= i < |ms| => ms[i].(parent := Some(parent)))
  }

  /** One factory result per field of the table, in field order; `None` is a null measure. */
  function MeasuresFor(t: AvailableTable, makeMeasure: AvailableField -> Option<AggNode>): (r: seq<Option<AggNode>>)
    ensures |r| == |t.fields|
    ensures forall i :: 0 <= i < |t.fields| ==> r[i] == makeMeasure(t.fields[i])
  {
    seq(|t.fields|, i requires 0 <= i < |t.fields| => makeMeasure(t.fields[i]))
  }

  /** The measures a table drop appends: those made from every field but the first, that are
      present, reparented to the collection. */
  function Appended(t: AvailableTable, parent: NodeId, makeMeasure: AvailableField -> Option<AggNode>): (r: seq<AggNode>)
    requires |t.fields| > 0
    ensures |r| <= |t.fields| - 1
    ensures forall m :: m in r <==>
              exists i :: 1 <= i < |t.fields| && makeMeasure(t.fields[i]).Some?
                          && m == makeMeasure(t.fields[i]).value.(parent := Some(parent))
    ensures (forall i :: 0 <= i < |t.fields| ==> makeMeasure(t.fields[i]).Some?) ==>
              |r| == |t.fields| - 1
              && forall i :: 1 <= i < |t.fields| ==> r[i - 1] == makeMeasure(t.fields[i]).value.(parent := Some(parent))
  {
    var ms := MeasuresFor(t, makeMeasure);
    var rest := ms[1..];
    assert forall i :: 1 <= i < |t.fields| ==> rest[i - 1] == makeMeasure(t.fields[i]);
    var kept := Present(rest);
    var r := Adopt(kept, parent);
    forall m | m in r
      ensures exists i :: 1 <= i < |t.fields| && makeMeasure(t.fields[i]).Some?
                          && m == makeMeasure(t.fields[i]).value.(parent := Some(parent))
    {
      var k :| 0 <= k < |kept| && r[k] == m;
      assert Some(kept[k]) in rest;
      var i :| 0 <= i < |rest| && rest[i] == Some(kept[k]);
      assert makeMeasure(t.fields[i + 1]) == Some(kept[k]);
    }
    forall i | 1 <= i < |t.fields| && makeMeasure(t.fields[i]).Some?
      ensures makeMeasure(t.fields[i]).value.(parent := Some(parent)) in r
    {
      assert rest[i - 1] == makeMeasure(t.fields[i]);
      var x := makeMeasure(t.fields[i]).value;
      assert x in kept;
      var k :| 0 <= k < |kept| && kept[k] == x;
      assert r[k] == x.(parent := Some(parent));
    }
    r
  }

  /**
   onDrop. A table: one measure per field; all but the first are appended to the
   collection and the first is returned (none when the table has no fields or
   the first is null), with no fact-table check. A field becomes a measure
   through `makeMeasure`, which may produce none; a measure is reparented
   first. From version 2.0 either is then refused when unbound, and in a
   multi-table model fails unless its table is a fact table. Anything else is
   refused.
   */
  function OnDrop(c: MeasuresCollection, cand: Candidate, ws: Workspace,
                  makeMeasure: AvailableField -> Option<AggNode>): (r: DropResult<MeasuresCollection>)
    ensures !cand.FieldItem? && !cand.TableItem? && !cand.MeasureItem? ==>
              r == DropResult(Rejected, c, cand)
    ensures !cand.TableItem? ==> r.target == c
    ensures r.outcome.Conflict? ==> r.outcome.failure == IllegalState(NonFactTable)
    // a table: the first new measure is returned, the others appended in field order
    ensures cand.TableItem? ==> r.candidate == cand && r.target.(children := c.children) == c
    ensures cand.TableItem? && |cand.table.fields| == 0 ==> r.outcome.Rejected? && r.target == c
    ensures cand.TableItem? && |cand.table.fields| > 0 ==>
              (r.outcome.Rejected? <==> makeMeasure(cand.table.fields[0]).None?)
              && (r.outcome.Dropped? ==> r.outcome.node == makeMeasure(cand.table.fields[0]).value)
    // the others are appended even when the first is null
    ensures cand.TableItem? && |cand.table.fields| > 0 ==>
              |c.children| <= |r.target.children| <= |c.children| + |cand.table.fields| - 1
              && r.target.children[..|c.children|] == c.children
              && forall m :: m in r.target.children[|c.children|..] <==>
                   exists i :: 1 <= i < |cand.table.fields| && makeMeasure(cand.table.fields[i]).Some?
                               && m == makeMeasure(cand.table.fields[i]).value.(parent := Some(c.id))
    ensures cand.TableItem? && (forall i :: 0 <= i < |cand.table.fields| ==> makeMeasure(cand.table.fields[i]).Some?)
            && |cand.table.fields| > 0 ==>
              |r.target.children| == |c.children| + |cand.table.fields| - 1
              && forall i :: 1 <= i < |cand.table.fields| ==>
                   r.target.children[|c.children| + i - 1] == makeMeasure(cand.table.fields[i]).value.(parent := Some(c.id))
    // a field: a null measure is refused
    ensures cand.FieldItem? ==> r.candidate == cand
    ensures cand.FieldItem? && makeMeasure(cand.field).None? ==> r.outcome.Rejected?
    ensures cand.FieldItem? && r.outcome.Dropped? ==>
              makeMeasure(cand.field).Some? && r.outcome.node == makeMeasure(cand.field).value
    // a measure is reparented before the checks, so it stays reparented when they fail
    ensures cand.MeasureItem? ==> r.candidate == MeasureItem(cand.measure.(parent := Some(c.id)))
    ensures cand.MeasureItem? && r.outcome.Dropped? ==> r.outcome.node == cand.measure.(parent := Some(c.id))
    // the checks on a field's or a measure's resulting node
    ensures (cand.MeasureItem? || (cand.FieldItem? && makeMeasure(cand.field).Some?)) ==>
              var m := if cand.FieldItem? then makeMeasure(cand.field).value else cand.measure;
              (r.outcome.Rejected? <==> ws.versionAtLeast2 && m.column.None?)
              && (r.outcome.Conflict? <==>
                    ws.versionAtLeast2 && m.column.Some? && ws.tableCount > 1
                    && m.column.value.logicalTable.physical.factTable != OtherValue)
  {
    match cand
    case FieldItem(f) => DropResult(CheckMeasure(makeMeasure(f), ws), c, cand)
    case TableItem(t) =>
      if |t.fields| == 0 then DropResult(Rejected, c, cand)
      else
        // the first measure is taken out only when present; a null one is skipped when appending
        var first := makeMeasure(t.fields[0]);
        var added := c.children + Appended(t, c.id, makeMeasure);
        assert added[..|c.children|] == c.children && added[|c.children|..] == Appended(t, c.id, makeMeasure);
        DropResult(if first.Some? then Dropped(first.value) else Rejected, c.(children := added), cand)
    case MeasureItem(n) =>
      var moved := n.(parent := Some(c.id));
      DropResult(CheckMeasure(Some(moved), ws), c, MeasureItem(moved))
    case _ => DropResult(Rejected, c, cand)
  }

  /**
   For a field whose measure is bound to the field's own column, acceptsDrop and
   onDrop agree: an accepted field drops; a refused one fails with the
   non-fact-table conflict in a multi-table model of version 2.0 or later.
   */
  lemma FieldDropAgrees(c: MeasuresCollection, f: AvailableField, ws: Workspace, mk: AvailableField -> Option<AggNode>)
    requires mk(f).Some? && mk(f).value.column.Some?
    requires mk(f).value.column.value.logicalTable.physical == f.physical.table
    ensures AcceptsDrop(c, FieldItem(f), ws) ==> OnDrop(c, FieldItem(f), ws, mk).outcome == Dropped(mk(f).value)
    ensures !AcceptsDrop(c, FieldItem(f), ws) && ws.versionAtLeast2 && ws.tableCount > 1 ==>
              OnDrop(c, FieldItem(f), ws, mk).outcome == Conflict(IllegalState(NonFactTable))
  {
  }

  /**
   The converse gap: before version 2.0 every multi-table field is refused by
   acceptsDrop, and from 2.0 so is every field of a model without tables, yet
   onDrop turns such a field into a measure all the same (from 2.0, once the
   measure is bound).
   */
  lemma FieldRefusedYetDropped(c: MeasuresCollection, f: AvailableField, ws: Workspace, mk: AvailableField -> Option<AggNode>)
    requires ws.tableCount != 1
    requires mk(f).Some?
    requires !ws.versionAtLeast2 || (ws.tableCount == 0 && mk(f).value.column.Some?)
    ensures !AcceptsDrop(c, FieldItem(f), ws)
    ensures OnDrop(c, FieldItem(f), ws, mk).outcome == Dropped(mk(f).value)
  {
  }

  /** Measures are always accepted, yet from version 2.0 onDrop refuses an unbound one and
      fails on one from a non-fact table of a multi-table model. */
  lemma AcceptedMeasureMayNotDrop(c: MeasuresCollection, n: AggNode, ws: Workspace, mk: AvailableField -> Option<AggNode>)
    requires ws.versionAtLeast2
    ensures AcceptsDrop(c, MeasureItem(n), ws)
    ensures n.column.None? ==> OnDrop(c, MeasureItem(n), ws, mk).outcome.Rejected?
    ensures n.column.Some? && ws.tableCount > 1 && n.column.value.logicalTable.physical.factTable != OtherValue ==>
              OnDrop(c, MeasureItem(n), ws, mk).outcome.Conflict?
  {
  }

  /** A table drop bypasses the fact-table rule: it never fails, and a table whose first
      field yields a measure drops even where acceptsDrop refuses it. */
  lemma TableDropIgnoresFactRule(c: MeasuresCollection, t: AvailableTable, ws: Workspace, mk: AvailableField -> Option<AggNode>)
    ensures !OnDrop(c, TableItem(t), ws, mk).outcome.Conflict?
    ensures |t.fields| > 0 && mk(t.fields[0]).Some? ==> OnDrop(c, TableItem(t), ws, mk).outcome.Dropped?
  {
  }
}

=== FILE: model.dfy ===
/**
 Records shared by the nodes of the dimensional-model tree: columns and tables
 of the metadata catalog, validation messages, and the two workspace facts the
 drop rules consult.
 */
module Model {

  datatype Option<+T> = None | Some(value: T)

  /** The values present in `xs`, in order: a list with its nulls skipped. */
  function Present<T(!new)>(xs: seq<Option<T>>): (r: seq<T>)
    ensures |r| <= |xs|
    ensures forall x :: x in r <==> Some(x) in xs
    ensures (forall i :: 0 <= i < |xs| ==> xs[i].Some?) ==>
              |r| == |xs| && forall i :: 0 <= i < |xs| ==> r[i] == xs[i].value
    decreases |xs|
  {
    if |xs| == 0 then []
    else
      var rest := Present(xs[1..]);
      assert forall i :: 1 <= i < |xs| ==> xs[i] == xs[1..][i - 1];
      assert forall x :: Some(x) in xs <==> Some(x) == xs[0] || Some(x) in xs[1..];
      if xs[0].Some? then [xs[0].value] + rest else rest
  }

  /** Object identity of a tree node; parent links refer to it. */
  type NodeId = nat

  /** A validation message: an opaque message key and its positional arguments. */
  datatype Message = Message(key: string, args: seq<string>)

  /** The metadata data type of a column; only NUMERIC is singled out by the nodes. */
  datatype DataType = Numeric | NonNumeric(typeName: string)

  /** The metadata aggregation types the nodes use; `NoAggregation` is NONE. */
  datatype AggregationType =
    | NoAggregation
    | Sum
    | Average
    | Minimum
    | Maximum
    | Count
    | CountDistinct

  /** The value of a physical table's FACT_TABLE property. */
  datatype FactFlag =
    | Unset          // the property is absent (null)
    | BooleanFalse   // the property is Boolean.FALSE
    | OtherValue     // any other value

  datatype PhysicalTable = PhysicalTable(id: string, factTable: FactFlag)

  datatype PhysicalColumn = PhysicalColumn(id: string, table: PhysicalTable)

  datatype LogicalTable = LogicalTable(id: string, physical: PhysicalTable)

  /**
   A logical column as the nodes see it. `name` is its name in the node's
   locale; an absent aggregation list is the empty sequence.
   */
  datatype LogicalColumn = LogicalColumn(
    id: string,
    name: string,
    physical: PhysicalColumn,
    logicalTable: LogicalTable,
    dataType: DataType,
    aggregationType: Option<AggregationType>,
    aggregationList: seq<AggregationType>)

  /** A column of the catalog offered for dragging. */
  datatype AvailableField = AvailableField(name: string, physical: PhysicalColumn)

  /** A table of the catalog offered for dragging, with its fields in order. */
  datatype AvailableTable = AvailableTable(name: string, physical: PhysicalTable, fields: seq<AvailableField>)

  /**
   The workspace facts the drop rules read: how many tables are available, and
   whether the model's AGILE_BI_VERSION property is present and at least 2.0.
   */
  datatype Workspace = Workspace(tableCount: nat, versionAtLeast2: bool)

  /** The outcome of the base-class validation a node's own validation starts from. */
  datatype BaseValidity = BaseValidity(valid: bool, messages: seq<Message>)

  /** Java's `contains` followed by `add` when absent: append `m` unless it is already present. */
  function AddOnce(ms: seq<Message>, m: Message): (r: seq<Message>)
    ensures m in r
    ensures forall x :: x in r <==> x in ms || x == m
    ensures m in ms ==> r == ms
    ensures m !in ms ==> r == ms + [m]
  {
    if m in ms then ms else ms + [m]
  }

  /** ASCII lower-casing of one character. */
  function LowerChar(c: char): char
  {
    if 'A' <= c <= 'Z' then (c as int - 'A' as int + 'a' as int) as char else c
  }

  /** Case-insensitive string equality over ASCII letters. */
  predicate EqualsIgnoreCase(a: string, b: string)
  {
    |a| == |b| && forall i :: 0 <= i < |a| ==> LowerChar(a[i]) == LowerChar(b[i])
  }
}

=== FILE: siblings.dfy ===
/**
 Duplicate-name detection among the children of one node, as LevelMetaData
 (member properties) and MeasuresCollection (measures) both perform it while
 validating: the children are scanned in order with a name -> first-child map;
 a repeated name invalidates the repeating child and, if it is still valid,
 the first child of that name, adding the duplicate message to each at most
 once, and to the parent's own messages every time.

 The per-child outcome is defined here index by index (`Settle`), and the
 scan itself (`CheckNames`) is proved to compute it.
 */
module Siblings {
  import opened Model
  import opened Aggregations

  /** The message a repeated name produces under the given key. */
  function DuplicateMessage(key: string, name: string): Message
  {
    Message(key, [name])
  }

  /** Some child before `j` has the name of child `j`. */
  predicate Earlier(cs: seq<AggNode>, j: nat)
    requires j < |cs|
  {
    exists k :: 0 <= k < j && cs[k].name == cs[j].name
  }

  /** Some child strictly between `j` and `upTo` has the name of child `j`. */
  predicate LaterBefore(cs: seq<AggNode>, j: nat, upTo: nat)
    requires j < |cs| && upTo <= |cs|
  {
    exists k :: j < k < upTo && cs[k].name == cs[j].name
  }

  /** Child `j` shares its name with some other child. */
  predicate HasTwin(cs: seq<AggNode>, j: nat)
    requires j < |cs|
  {
    Earlier(cs, j) || LaterBefore(cs, j, |cs|)
  }

  /** Mark a child invalid and give it the duplicate message once. */
  function Flag(c: AggNode, key: string): AggNode
  {
    c.(valid := false, messages := AddOnce(c.messages, DuplicateMessage(key, c.name)))
  }

  /**
   The state of child `j` once the scan has looked at the children before `upTo`:
   a repeating child is flagged; a first child is flagged when a later twin has
   been seen and it was valid; every other child is untouched.
   */
  function SettleUpTo(cs: seq<AggNode>, j: nat, upTo: nat, key: string): AggNode
    requires j < |cs| && upTo <= |cs|
  {
    if Earlier(cs, j) then Flag(cs[j], key)
    else if LaterBefore(cs, j, upTo) && cs[j].valid then Flag(cs[j], key)
    else cs[j]
  }

  /** The final state of child `j`. */
  function Settle(cs: seq<AggNode>, j: nat, key: string): AggNode
    requires j < |cs|
  {
    SettleUpTo(cs, j, |cs|, key)
  }

  /** The children after the scan. */
  function Settled(cs: seq<AggNode>, key: string): (r: seq<AggNode>)
    ensures |r| == |cs|
  {
    seq(|cs|, j requires 0 <= j < |cs| => Settle(cs, j, key))
  }

  /** The children before `upTo` were all valid and none repeated an earlier name. */
  predicate AllClearUpTo(cs: seq<AggNode>, upTo: nat)
    requires upTo <= |cs|
  {
    forall j :: 0 <= j < upTo ==> cs[j].valid && !Earlier(cs, j)
  }

  predicate AllClear(cs: seq<AggNode>)
  {
    AllClearUpTo(cs, |cs|)
  }

  /** The messages the parent gathers from the children before `upTo`: each child's own
      messages, followed by the duplicate message when that child repeats a name. */
  function CollectedUpTo(cs: seq<AggNode>, upTo: nat, key: string): seq<Message>
    requires upTo <= |cs|
  {
    if upTo == 0 then []
    else CollectedUpTo(cs, upTo - 1, key) + Gathered(cs[upTo - 1], Earlier(cs, upTo - 1), key)
  }

  /** What the parent gathers from one child: its messages, then the duplicate message
      when it repeats a name. */
  function Gathered(c: AggNode, repeated: bool, key: string): seq<Message>
  {
    c.messages + (if repeated then [DuplicateMessage(key, c.name)] else [])
  }

  function Collected(cs: seq<AggNode>, key: string): seq<Message>
  {
    CollectedUpTo(cs, |cs|, key)
  }

  /** The children once the scan has looked at those before `upTo`. */
  function Scanned(cs: seq<AggNode>, upTo: nat, key: string): (r: seq<AggNode>)
    requires upTo <= |cs|
    ensures |r| == |cs|
  {
    seq(|cs|, j requires 0 <= j < |cs| => if j < upTo then SettleUpTo(cs, j, upTo, key) else cs[j])
  }

  /**
   The scan as `LevelMetaData.validate` and `MeasuresCollection.validate` write
   it: one pass over the children with a map from each name seen to the index
   of the first child bearing it. Returns the
   combined validity of the children, the messages the parent gathers, and the
   children after the scan.
   */
  method CheckNames(cs: seq<AggNode>, key: string)
    returns (valid: bool, messages: seq<Message>, settled: seq<AggNode>)
    ensures valid == AllClear(cs)
    ensures messages == Collected(cs, key)
    ensures settled == Settled(cs, key)
  {
    var used: map<string, nat> := map[];
    valid := true;
    messages := [];
    settled := cs;
    var i := 0;
    while i < |cs|
      invariant 0 <= i <= |cs|
      invariant settled == Scanned(cs, i, key)
      invariant forall n :: n in used <==> exists k :: 0 <= k < i && cs[k].name == n
      invariant forall n :: n in used ==> used[n] < i && cs[used[n]].name == n && !Earlier(cs, used[n])
      invariant valid == AllClearUpTo(cs, i)
      invariant messages == CollectedUpTo(cs, i, key)
    {
      var c := settled[i];
      assert c == cs[i];
      valid := valid && c.valid;
      var repeated := c.name in used;
      assert repeated == Earlier(cs, i);
      messages := messages + Gathered(c, repeated, key);
      assert messages == CollectedUpTo(cs, i + 1, key);
      if repeated {
        valid := false;
        var k := used[c.name];
        RepeatStep(cs, i, key, k);
        settled := settled[i := Flag(c, key)];
        if settled[k].valid {
          settled := settled[k := Flag(settled[k], key)];
        }
      } else {
        used := used[c.name := i];
        assert !Earlier(cs, i);
        NewNameStep(cs, i, key);
      }
      i := i + 1;
    }
    assert settled == Settled(cs, key);
  }

  /** A child that repeats no earlier name leaves the scanned children as they were. */
  lemma NewNameStep(cs: seq<AggNode>, i: nat, key: string)
    requires i < |cs| && !Earlier(cs, i)
    ensures Scanned(cs, i + 1, key) == Scanned(cs, i, key)
  {
    forall j | 0 <= j < i
      ensures SettleUpTo(cs, j, i + 1, key) == SettleUpTo(cs, j, i, key)
    {
      assert cs[j].name != cs[i].name;
      assert LaterBefore(cs, j, i + 1) == LaterBefore(cs, j, i);
    }
  }

  /** A child `i` repeating the name first borne by `k` is flagged, and so is `k` if it is
      still valid. */
  lemma RepeatStep(cs: seq<AggNode>, i: nat, key: string, k: nat)
    requires i < |cs| && k < i && cs[k].name == cs[i].name && !Earlier(cs, k)
    ensures var s := Scanned(cs, i, key)[i := Flag(cs[i], key)];
            Scanned(cs, i + 1, key) == if s[k].valid then s[k := Flag(s[k], key)] else s
  {
    assert Earlier(cs, i);
    var s := Scanned(cs, i, key)[i := Flag(cs[i], key)];
    var t := if s[k].valid then s[k := Flag(s[k], key)] else s;
    forall j | 0 <= j < |cs|
      ensures Scanned(cs, i + 1, key)[j] == t[j]
    {
      if j > i || j == i {
      } else if j == k {
        assert LaterBefore(cs, k, i + 1);
      } else if cs[j].name == cs[i].name {
        // the first twin `k` comes before `j`, so `j` repeats an earlier name
        assert cs[j].name == cs[k].name;
        assert k < j;
        assert Earlier(cs, j);
      } else {
        assert LaterBefore(cs, j, i + 1) == LaterBefore(cs, j, i);
      }
    }
  }

  /** The combined validity means: every child valid and no two children share a name. */
  lemma AllClearMeansDistinct(cs: seq<AggNode>)
    ensures AllClear(cs) <==>
              (forall j :: 0 <= j < |cs| ==> cs[j].valid)
              && (forall j, k :: 0 <= j < k < |cs| ==> cs[j].name != cs[k].name)
  {
    if AllClear(cs) {
      forall j, k | 0 <= j < k < |cs|
        ensures cs[j].name != cs[k].name
      {
        assert !Earlier(cs, k);
      }
    }
  }

  /**
   After the scan a child is valid exactly when it was valid and shares its name
   with no sibling; it carries the duplicate message if it repeats a name, or if
   it is the first of a repeated name and was valid; it gains that message at
   most once and nothing else about it changes.
   */
  lemma SettledMeaning(cs: seq<AggNode>, key: string, j: nat)
    requires j < |cs|
    ensures Settled(cs, key)[j].valid <==> cs[j].valid && !HasTwin(cs, j)
    ensures Earlier(cs, j) || (HasTwin(cs, j) && cs[j].valid) ==>
              DuplicateMessage(key, cs[j].name) in Settled(cs, key)[j].messages
    ensures Settled(cs, key)[j].messages == cs[j].messages
            || (DuplicateMessage(key, cs[j].name) !in cs[j].messages
                && Settled(cs, key)[j].messages == cs[j].messages + [DuplicateMessage(key, cs[j].name)])
    ensures !HasTwin(cs, j) ==> Settled(cs, key)[j] == cs[j]
    // a first sibling that was already invalid gains no duplicate message
    ensures !Earlier(cs, j) && !cs[j].valid ==> Settled(cs, key)[j] == cs[j]
    ensures Settled(cs, key)[j].(valid := cs[j].valid, messages := cs[j].messages) == cs[j]
  {
  }

  /** Two children sharing a name put the duplicate message among the collected messages. */
  lemma RepeatedNamesReported(cs: seq<AggNode>, key: string)
    ensures forall j, k :: 0 <= j < k < |cs| && cs[j].name == cs[k].name ==>
              DuplicateMessage(key, cs[j].name) in Collected(cs, key)
  {
    CollectedMeaning(cs, key, |cs|);
    forall j, k | 0 <= j < k < |cs| && cs[j].name == cs[k].name
      ensures DuplicateMessage(key, cs[j].name) in Collected(cs, key)
    {
      assert Earlier(cs, k);
    }
  }

  /** A name that occurs twice puts its duplicate message among the parent's messages,
      and the parent gathers every message of every child. */
  lemma CollectedMeaning(cs: seq<AggNode>, key: string, upTo: nat)
    requires upTo <= |cs|
    ensures forall m :: m in CollectedUpTo(cs, upTo, key) <==>
              (exists j :: 0 <= j < upTo && m in cs[j].messages)
              || (exists j :: 0 <= j < upTo && Earlier(cs, j) && m == DuplicateMessage(key, cs[j].name))
  {
    if upTo > 0 {
      CollectedMeaning(cs, key, upTo - 1);
    }
  }

  /** The scan changes only validity and messages, so names and hence twins survive it. */
  lemma SettledKeepsNames(cs: seq<AggNode>, key: string)
    ensures forall j :: 0 <= j < |cs| ==> Settled(cs, key)[j].name == cs[j].name
    ensures forall j :: 0 <= j < |cs| ==> (Earlier(Settled(cs, key), j) <==> Earlier(cs, j))
    ensures forall j :: 0 <= j < |cs| ==> (HasTwin(Settled(cs, key), j) <==> HasTwin(cs, j))
  {
    var s := Settled(cs, key);
    forall j | 0 <= j < |cs|
      ensures s[j].name == cs[j].name
    {
      SettledMeaning(cs, key, j);
    }
    forall j | 0 <= j < |cs|
      ensures (Earlier(s, j) <==> Earlier(cs, j)) && (HasTwin(s, j) <==> HasTwin(cs, j))
    {
      if Earlier(s, j) {
        var k :| 0 <= k < j && s[k].name == s[j].name;
        assert cs[k].name == cs[j].name;
      }
      if Earlier(cs, j) {
        var k :| 0 <= k < j && cs[k].name == cs[j].name;
        assert s[k].name == s[j].name;
      }
      if LaterBefore(s, j, |cs|) {
        var k :| j < k < |cs| && s[k].name == s[j].name;
        assert cs[k].name == cs[j].name;
      }
      if LaterBefore(cs, j, |cs|) {
        var k :| j < k < |cs| && cs[k].name == cs[j].name;
        assert s[k].name == s[j].name;
      }
    }
  }

  /** Scanning a second time changes no child. */
  lemma {:induction false} SettledIdempotent(cs: seq<AggNode>, key: string)
    ensures Settled(Settled(cs, key), key) == Settled(cs, key)
  {
    var s := Settled(cs, key);
    SettledKeepsNames(cs, key);
    forall j | 0 <= j < |cs|
      ensures Settled(s, key)[j] == s[j]
    {
      SettledMeaning(cs, key, j);
      SettledMeaning(s, key, j);
      if Earlier(cs, j) {
        assert Settle(s, j, key) == Flag(s[j], key);
      } else if HasTwin(cs, j) {
        assert !Earlier(s, j);
        assert !s[j].valid;
      }
    }
  }

  /** A second scan reaches the same verdict. */
  lemma {:induction false} AllClearAfterSettle(cs: seq<AggNode>, key: string)
    ensures AllClear(Settled(cs, key)) == AllClear(cs)
  {
    var s := Settled(cs, key);
    SettledKeepsNames(cs, key);
    AllClearMeansDistinct(cs);
    AllClearMeansDistinct(s);
    if AllClear(cs) {
      forall j | 0 <= j < |cs| ensures s[j].valid {
        SettledMeaning(cs, key, j);
        assert !Earlier(cs, j);
        assert !LaterBefore(cs, j, |cs|);
      }
    }
    if AllClear(s) {
      forall j | 0 <= j < |cs| ensures cs[j].valid {
        SettledMeaning(cs, key, j);
      }
    }
  }

  /** A second scan gathers the same set of messages: the only messages the first scan
      adds to children are duplicate messages the parent already gathered. */
  lemma {:induction false} CollectedAfterSettle(cs: seq<AggNode>, key: string)
    ensures forall m :: m in Collected(Settled(cs, key), key) <==> m in Collected(cs, key)
  {
    var s := Settled(cs, key);
    SettledKeepsNames(cs, key);
    CollectedMeaning(cs, key, |cs|);
    CollectedMeaning(s, key, |cs|);
    forall m | m in Collected(s, key)
      ensures m in Collected(cs, key)
    {
      if exists j :: 0 <= j < |cs| && m in s[j].messages {
        var j :| 0 <= j < |cs| && m in s[j].messages;
        SettledMeaning(cs, key, j);
        if m !in cs[j].messages {
          assert m == DuplicateMessage(key, cs[j].name);
          assert HasTwin(cs, j);
          if Earlier(cs, j) {
            assert m in Collected(cs, key);
          } else {
            var k :| j < k < |cs| && cs[k].name == cs[j].name;
            assert Earlier(cs, k);
            assert m == DuplicateMessage(key, cs[k].name);
          }
        }
      } else {
        var j :| 0 <= j < |cs| && Earlier(s, j) && m == DuplicateMessage(key, s[j].name);
        assert Earlier(cs, j);
      }
    }
    forall m | m in Collected(cs, key)
      ensures m in Collected(s, key)
    {
      if exists j :: 0 <= j < |cs| && m in cs[j].messages {
        var j :| 0 <= j < |cs| && m in cs[j].messages;
        SettledMeaning(cs, key, j);
        assert m in s[j].messages;
      } else {
        var j :| 0 <= j < |cs| && Earlier(cs, j) && m == DuplicateMessage(key, cs[j].name);
        assert Earlier(s, j);
      }
    }
  }
}
